=== FILE: README.md ===
# Weather radar display — client core in Dafny

A functional model of the client side of a weather radar display, a
single-page application that shows the latest MRMS reflectivity frame over a
map. The model covers:

- the data gateway `radarApi` (`radar_api.dfy`). It fetches the latest frame,
  a frame by instant, the list of available instants, a batch of animation
  frames, and a health probe. When the provider cannot be reached it
  synthesizes placeholder data.
- the application shell `App` (`app.dfy`). This is the refresh state machine:
  initial load, manual refresh, the two-minute auto-refresh interval, the
  error record, and the choice between spinner, error panel and map.
- the header indicators (`header_bar.dfy`): the LIVE/DEMO badge, the
  last-update card and the refresh button.
- the animation player's frame stepping, frame labels and speed buttons
  (`animation_player.dfy`).
- the display helpers (`helpers.dfy`): reflectivity colour and intensity
  label, the relative-age phrase, staleness, and the file-size unit.
- supporting modules:
  - `radar_types.dfy` holds the records.
  - `maybe.dfy` holds `Option`/`Result`.
  - `decimal.dfy` renders whole numbers in decimal, with a parser proved
    inverse.
  - `sequences.dfy` holds `Reverse`.

Modelling choices:

- **Time.** Instants are integers, in milliseconds since the epoch. The
  wall-clock reading (`Date.now()`, `new Date()`) is a parameter `now`.
  ISO-8601 strings are not modelled; they order like the instants they
  denote.
- **Opacity.** `App.ChangeOpacity` (`handleOpacityChange`, src/App.tsx:69-71)
  only replaces the opacity and has no further contract.
- **Transport.** The HTTP client is a value `Exchange`. Either no response
  arrived, or a reply came with a status, a latency and a decoded body. The
  client rejects the request (an axios error) when there is no response, when
  the latency reaches the 30 000 ms timeout, or when the status is outside
  200..299, which is the client's default status check.
- **Exceptions.** A thrown value is `Thrown`: an `Error` instance with its
  message, or anything else. A method that may throw returns
  `Result<_, Thrown>`.
- **Asynchronous refresh.** `fetchRadarData` is split into two events, its
  start (`BeginFetch`) and its completion (`CompleteFetch`). This makes
  overlapping refreshes expressible.
  - The state also counts the fetches that have started and not finished
    (`inFlight`) and records when the armed interval fires next (`nextTick`).
    Both describe the environment, not component state.
  - The interval timer is a sequence of `Tick(now)` events.
- **Locale text.** Locale-dependent formatting (`toLocaleString`,
  `toLocaleTimeString`) is an opaque function parameter.

Four behaviours of the code worth knowing:

- `getLatestRadarData` substitutes mock data only when the HTTP client itself
  fails. An envelope with `success: false` or without data makes it throw an
  `Error` carrying the provider's error text, or "Failed to fetch radar
  data" when there is none. The application shell then records that text.
  `getRadarDataByTimestamp`, `getAvailableTimestamps` and `getRadarFrames`
  fall back to mock data on every failure.
- `getRadarFrames` returns a delivered batch in the provider's order. It does
  not sort it.
- The refresh button is disabled only while a refresh is shown as running.
  Two fetches can still overlap: a click during the initial load, or a timer
  firing during a refresh, starts a second one. The first completion then
  lowers both busy flags while the other fetch is still running, and a stale
  error can survive a later success.
- The animation widget has no timer of its own, no looping, no seek
  validation, and no speed validation. Its buttons only ask the parent for a
  frame or a speed.

## Model

| member | source | states |
|---|---|---|
| `RadarTypes.EvenlySpacedAscending` | src/services/radarApi.ts:168-179 | a sequence whose consecutive entries are a positive step apart is strictly increasing; this is why every synthetic list is ordered oldest first |
| `Sequences.Reverse` | src/services/radarApi.ts:178 | `Array.prototype.reverse`: same length, entry `i` is entry `n-1-i` of the input |
| `Sequences.ReverseAppend` | src/services/radarApi.ts:178 | reversing after a push puts the pushed element first, which is why push-then-reverse yields oldest first |
| `Decimal.DecimalString` | src/services/radarApi.ts:189-191 | the string form of a whole number is non-empty, all digits, and has no leading zero |
| `Decimal.ParseDecimalString` | src/services/radarApi.ts:189-191 | reading the rendered digits back gives the number, so the rendering loses nothing |
| `Decimal.DecimalStringInjective` | src/services/radarApi.ts:189-191 | distinct frame numbers render as distinct strings |
| `RadarApi.FailureMessage` | src/services/radarApi.ts:67-69 | the provider's error text when present and non-empty, the method's own message otherwise; never empty |
| `RadarApi.MockRadarData` | src/services/radarApi.ts:147-166 | the synthetic frame is stamped with the current instant, points at the pending image, covers the continental United States box (a non-empty, non-wrapping rectangle) and carries the RALA/MRMS metadata |
| `RadarApi.MockFrames` | src/services/radarApi.ts:181-208 | the synthetic batch holds `max(count, 0)` frames; a zero or negative count gives none |
| `RadarApi.MockFrameIndex` | src/services/radarApi.ts:185-207 | entry `k` of the oldest-first batch is the frame built on iteration `count-1-k` |
| `RadarApi.MockFramesShape` | src/services/radarApi.ts:181-208 | the batch is two minutes apart, its newest frame is stamped now, and every frame covers the continental United States box |
| `RadarApi.BuildMockFrames` | src/services/radarApi.ts:181-208 | the loop as written (push newest first, then reverse) yields exactly the batch described by `MockFrames` |
| `RadarApi.MockTimestamps` | src/services/radarApi.ts:168-179 | thirty instants two minutes apart ending now: the last hour |
| `RadarApi.BuildMockTimestamps` | src/services/radarApi.ts:168-179 | the push-then-reverse loop yields exactly `MockTimestamps` |
| `RadarApi.GetLatestRadarData` | src/services/radarApi.ts:57-78 | delivered payload when the envelope succeeds; mock data exactly when the HTTP client rejects; otherwise (and only otherwise) an `Error` carrying the provider's message or the default one |
| `RadarApi.DeliveredOr` | src/services/radarApi.ts:83-100 | the shared shape of the forgiving methods: the payload iff delivered, the fallback on every failure |
| `RadarApi.GetRadarDataByTimestamp` | src/services/radarApi.ts:83-100 | delivered payload, or mock data on any failure, including a failed envelope |
| `RadarApi.GetAvailableTimestamps` | src/services/radarApi.ts:105-122 | delivered list, or on any failure exactly the synthetic list: thirty strictly increasing instants ending now |
| `RadarApi.GetRadarFrames` | src/services/radarApi.ts:127-142 | delivered batch unchanged, or on any failure exactly the synthetic batch: `max(count, 0)` frames in strictly increasing time order, the last stamped now |
| `RadarApi.CheckHealth` | src/services/radarApi.ts:213-220 | healthy iff a reply arrived within the timeout with status exactly 200 (other 2xx replies read as unhealthy) |
| `RadarApi.LatestRethrowsWhereByTimestampFallsBack` | src/services/radarApi.ts:57-100 | the two single-frame methods agree when the latest-frame fetch resolves; it throws exactly for an accepted reply whose envelope fails, where the other yields mock data |
| `RadarApi.SlowReplyIsTransportFailure` | src/services/radarApi.ts:13-19 | a reply slower than the 30 s timeout is a client failure: mock latest frame, unhealthy backend |
| `RadarApi.MockFrameImagesDistinct` | src/services/radarApi.ts:185-191 | synthetic frames carry pairwise distinct image locators, tagged `count-1` for the oldest down to `0` for the newest |
| `RadarApi.FrameImagesDiffer` | src/services/radarApi.ts:189-191 | frames built on different iterations carry different image locators |
| `RadarApi.DefaultFramesFallback` | src/services/radarApi.ts:127-142 | the default count is ten, so a default request that fails in any way yields ten frames ending now |
| `RadarApi.DeliveredFramesNotResorted` | src/services/radarApi.ts:127-142 | a newest-first delivered batch comes back newest first, not ascending |
| `Helpers.Band` | src/utils/helpers.ts:44-57 | reference definition of a threshold table: the band is the number of cutoffs reached, every cutoff below it is `<= x` and the next one is `> x` |
| `Helpers.BandMonotone` | src/utils/helpers.ts:44-71 | a larger reading never falls in a lower band |
| `Helpers.BandUnique` | src/utils/helpers.ts:44-71 | in an increasing table, an index whose interval contains the reading is its band |
| `Helpers.ColorTableWellFormed` | src/utils/helpers.ts:44-57 | increasing cutoffs and twelve distinct colours, one per band |
| `Helpers.LabelTableWellFormed` | src/utils/helpers.ts:62-71 | increasing cutoffs and eight distinct intensity names, one per band |
| `Helpers.ReflectivityColor` | src/utils/helpers.ts:44-57 | `getReflectivityColor`: the colour is the palette entry of the reading's band in the cutoff table |
| `Helpers.ColorChainFollowsTable` | src/utils/helpers.ts:44-57 | the threshold chain as written returns the palette entry of the reading's band for every reading |
| `Helpers.ReflectivityLabel` | src/utils/helpers.ts:62-71 | `getReflectivityLabel`: the name is the intensity label of the reading's band in the cutoff table |
| `Helpers.LabelChainFollowsTable` | src/utils/helpers.ts:62-71 | the threshold chain as written returns the name of the reading's band for every reading |
| `Helpers.ReflectivityBandsMonotone` | src/utils/helpers.ts:44-57 | stronger reflectivity never maps to an earlier palette colour |
| `Helpers.IntensityLabelsMonotone` | src/utils/helpers.ts:62-71 | stronger reflectivity never maps to a milder intensity name |
| `Helpers.ReflectivityScaleEnds` | src/utils/helpers.ts:44-71 | below 5 dBZ the colour is "transparent" and the name "No Precipitation"; from 70 dBZ on they are "#d40000" and "Extreme" |
| `Helpers.ElapsedSince` | src/utils/helpers.ts:23-39 | with floored divisions, each unit covers exactly its age range (future ages are "just now") and the count is the number of whole units elapsed |
| `Helpers.PhraseReadsBack` | src/utils/helpers.ts:32-38 | "just now" and each singular phrase name exactly one age class; every other phrase starts with a digit |
| `Helpers.PluralPhraseReadsBack` | src/utils/helpers.ts:34-38 | a phrase for a count other than one is the count in decimal, which parses back to the count, followed by " minutes ago", " hours ago" or " days ago" |
| `Helpers.TimeAgo` | src/utils/helpers.ts:23-39 | "just now" iff the age is under a minute; "1 minute ago", "1 hour ago" and "1 day ago" iff the age is in the first whole unit; otherwise the floored count of minutes below an hour, hours below a day, or days, in decimal, followed by the plural unit words |
| `Helpers.IsDataStale` | src/utils/helpers.ts:84-91 | stale iff the age reaches `(threshold + 1)` whole minutes |
| `Helpers.DefaultStalenessBoundary` | src/utils/helpers.ts:84-91 | with the default five minutes, 359 999 ms is fresh and 360 000 ms is stale |
| `Helpers.StalenessMonotone` | src/utils/helpers.ts:84-91 | older data is at least as stale as newer data |
| `Helpers.FileSizeUnit` | src/utils/helpers.ts:96-100 | the unit is the largest of B, KB and MB whose size does not exceed the byte count, and B when none but B fits |
| `Helpers.FileSizeUnitScale` | src/utils/helpers.ts:96-100 | the printed number is below 1024 except in MB and at least 1 except in B |
| `AnimationPlayer.PrevFrame` | src/components/AnimationPlayer.tsx:43-47 | a request iff the cursor is past the first frame, and then for the frame before |
| `AnimationPlayer.NextFrame` | src/components/AnimationPlayer.tsx:49-53 | a request iff the cursor is before the last frame, and then for the frame after |
| `AnimationPlayer.SteppingStaysInRange` | src/components/AnimationPlayer.tsx:43-53 | stepping keeps a valid cursor valid and moves it by one except at the boundary |
| `AnimationPlayer.RepeatedStepsClamp` | src/components/AnimationPlayer.tsx:43-53 | repeated steps clamp at the first and last frame and never wrap |
| `AnimationPlayer.PrevDisabled` | src/components/AnimationPlayer.tsx:94 | from a non-negative cursor, the previous-frame button is disabled iff pressing it would request nothing |
| `AnimationPlayer.NextDisabled` | src/components/AnimationPlayer.tsx:141 | from a cursor not past the last frame, the next-frame button is disabled iff pressing it would request nothing |
| `AnimationPlayer.EmptyBatchNextEnabledButInert` | src/components/AnimationPlayer.tsx:49-53 | with no frames the next-frame button is enabled at cursor 0 but requests nothing |
| `AnimationPlayer.StepRoundTrip` | src/components/AnimationPlayer.tsx:43-53 | away from the boundaries, previous then next (and next then previous) returns to the same frame |
| `AnimationPlayer.LabelInstants` | src/components/AnimationPlayer.tsx:25-34 | one label instant per frame, two minutes apart, the last one now |
| `AnimationPlayer.LabelsMatchMockFrames` | src/components/AnimationPlayer.tsx:25-34 | the label instants are ascending and coincide with the synthetic frame batch of the same size |
| `AnimationPlayer.ShownLabel` | src/components/AnimationPlayer.tsx:83-86 | a present, non-empty label is shown as is; a missing or empty one shows "--:--"; the text is never empty |
| `AnimationPlayer.FrameCounter` | src/components/AnimationPlayer.tsx:68-70 | one-based position and always the frame count as the total; the position lies between 1 and the total for a valid cursor |
| `AnimationPlayer.SpeedHighlight` | src/components/AnimationPlayer.tsx:168-180 | at most one button is highlighted, and one is iff the speed is 0.5, 1, 1.5 or 2 |
| `AnimationPlayer.ChosenSpeedHighlighted` | src/components/AnimationPlayer.tsx:168-180 | choosing a speed button highlights exactly that button |
| `HeaderBar.FormatTimestamp` | src/components/Header.tsx:16-25 | "N/A" for a missing or empty timestamp, the locale text otherwise |
| `HeaderBar.FormatTimeOnly` | src/components/Header.tsx:27-34 | "--:--" for a missing or empty timestamp, the locale time otherwise |
| `HeaderBar.RenderHeader` | src/components/Header.tsx:84-172 | LIVE iff connected and DEMO iff not; the update card iff there is data; the button is disabled and reads "Updating..." iff a refresh is shown as running |
| `App.FetchOutcomeOf` | src/App.tsx:30-35 | a fetch cycle throws iff the latest-frame fetch throws, and then with exactly the `Error` that fetch built (non-empty message); otherwise it carries that frame and the health answer |
| `App.FailedFetchRecordsProviderError` | src/App.tsx:30-41 | a failed latest-frame request records the provider's error text, or "Failed to fetch radar data" when it names none |
| `App.ErrorMessage` | src/App.tsx:36-41 | an `Error`'s own message, or "Failed to fetch radar data" for any other thrown value |
| `App.BeginFetch` | src/App.tsx:21-28 | raises the requested busy flag, clears the error, adds one running fetch, and changes nothing else |
| `App.CompleteFetch` | src/App.tsx:30-46 | success installs frame and health and keeps the error; failure records the message and keeps frame and health; both busy flags drop either way |
| `App.Mount` | src/App.tsx:49-63 | on mount: loading without the refreshing indicator, one fetch running, first tick one period away, no data, no error, auto-refresh on |
| `App.MountStartsInitialLoad` | src/App.tsx:10-63 | the initial state; once mounted the page is consistent, shows the spinner and the DEMO badge, and the refresh button is enabled |
| `App.Tick` | src/App.tsx:55-63 | before the armed instant, or with none armed, a tick changes nothing; once due it starts a refreshing fetch, clears the error and re-arms one period later |
| `App.HandleRefresh` | src/App.tsx:65-67 | starts one more fetch with the refreshing indicator and clears the error; nothing else changes |
| `App.ToggleAutoRefresh` | src/App.tsx:73-75 | flips auto-refresh; an interval is armed, one period ahead, exactly when it ends up on; nothing else changes |
| `App.StepPreservesConsistency` | src/App.tsx:21-75 | each enabled event (clicks only while the button is enabled) keeps the interval armed iff auto-refresh is on, busy flags only while a fetch runs, and errors non-empty and never beside a busy flag |
| `App.RunPreservesConsistency` | src/App.tsx:21-75 | every state reached by any event sequence from a consistent one is consistent |
| `App.IsolatedFetchCycle` | src/App.tsx:21-47 | a non-overlapping cycle: success leaves frame, health and no error; failure leaves the message and the old frame |
| `App.ClickableWhenButtonShown` | src/components/Header.tsx:137-139 | a click is possible iff the header's button is enabled, and always while "Try Again" is shown |
| `App.TickDuringRefreshOverlaps` | src/App.tsx:55-63 | a due tick during a refresh starts a second fetch; the first completion re-enables the button while the other is still out |
| `App.ClickDuringInitialLoadOverlaps` | src/App.tsx:49-67 | a click during the initial load is allowed and starts a second fetch; the first completion clears both busy flags while one is still out |
| `App.StaleErrorSurvivesLaterSuccess` | src/App.tsx:21-47 | of two overlapping fetches, a failure then a success leaves the failure's message |
| `App.TickFiresOnlyWhenDue` | src/App.tsx:55-63 | a tick fetches iff auto-refresh is on and the interval is due, then re-arms one period later |
| `App.ToggleOffCancelsTimer` | src/App.tsx:55-75 | turning auto-refresh off cancels the interval: no later tick does anything |
| `App.ToggleOnArmsWithoutFetching` | src/App.tsx:55-75 | turning it on starts nothing before a full period, then fetches |
| `App.SelectView` | src/App.tsx:104-145 | spinner iff loading without data; otherwise the error panel, showing the message, iff a non-empty error is recorded; otherwise the map with the data and opacity |
| `App.ViewSelection` | src/App.tsx:104-145 | in a consistent state: the error panel iff an error is recorded, even over data, and never while a busy flag is up |
| `App.RetryAfterFailedLoadShowsEmptyMap` | src/App.tsx:104-145 | after a failed first load, "Try Again" shows the map without data while the retry runs |
| `App.FailedRefreshHidesFrame` | src/App.tsx:104-145 | a failed refresh after a successful load shows the error panel although the frame is kept |
| `App.UnreachableProviderShowsDemo` | src/App.tsx:21-47 | with the provider unreachable, a fetch cycle installs the synthetic frame and the header reads DEMO |
| `App.FooterSource` | src/App.tsx:166 | the frame's metadata source when present and non-empty, and "MRMS" in every other case |

## Left out

- The HTTP client's construction: base URL, headers, request and response
  logging interceptors. Request paths (`/radar/latest`, `/radar/{timestamp}`,
  `/radar/frames?count=…`) are folded into the `Exchange` each fetch receives.
- A reply body that is not an `ApiResponse` envelope (for example `null`).
  The body is always a decoded envelope.
- ISO-8601 rendering (`toISOString`) and every locale-dependent format. The
  locale text is an opaque function parameter.
- Non-integer counts, thresholds and cursor values. JavaScript numbers are
  modelled as integers, except dBZ readings, bytes, opacity and speed, which
  are reals.
- Helpers.FileSizeUnitScale: covers the choice of unit and the range of the
  number only, not the `toFixed(2)` text of the number or the unit's suffix,
  because decimal rounding of reals is not modelled.
- AnimationPlayer.LabelInstants: takes one clock reading for all labels,
  while the source reads `Date.now()` once per entry inside the
  `Array.from` mapper (src/components/AnimationPlayer.tsx:26-27). The exact
  two-minute spacing and the equality with the synthetic batch
  (`AnimationPlayer.LabelsMatchMockFrames`) hold only when every reading
  gives the same instant.
- The header formats `radarData.timestamp` as a string (an ISO instant),
  while the model's frames carry the instant as integer milliseconds.
  `HeaderBar.FormatTimestamp` and `HeaderBar.FormatTimeOnly` therefore take
  the timestamp text as their own input, and nothing ties it to a frame.
- `isValidTimestamp` (src/utils/helpers.ts:76-79): it depends on JavaScript's
  date parser, which is not modelled.
- `debounce` (src/utils/helpers.ts:105-120): it depends on timers and
  closures.
- `formatTimestamp` in src/utils/helpers.ts:6-18. It has the same missing or
  empty fallback as the header's and is covered by `HeaderBar.FormatTimestamp`.
- The slider handler's `parseInt` (src/components/AnimationPlayer.tsx:36-41),
  the play/pause button and `onSpeedChange`. They pass values to the parent,
  which is not part of this model.
- The intermediate render between `setRadarData` and the health answer. A
  fetch cycle's completion is one step.
- Interval cleanup on unmount, and React's batching of state updates.
- The presentational components ControlPanel, Legend, RadarMap and
  DataCoverageNotice.

=== FILE: animation_player.dfy ===
/** The playback widget of src/components/AnimationPlayer.tsx. The widget
    does not own the frame cursor: its step buttons only ask the parent to
    move it, so each handler yields the frame it requests, or nothing. */
module AnimationPlayer {
  import opened Maybe
  import opened RadarTypes
  import RadarApi

  /** Shown where a label is missing. */
  const MissingLabel: string := "--:--"

  /** `handlePrevFrame`: asks for the previous frame unless the cursor is at
      (or before) the first one. */
  function PrevFrame(cursor: int): (request: Option<int>)
    ensures request.Some? <==> cursor > 0
    ensures request.Some? ==> request.value == cursor - 1
  {
    if cursor > 0 then Some(cursor - 1) else None
  }

  /** `handleNextFrame`: asks for the next frame unless the cursor is at (or
      past) the last one. */
  function NextFrame(cursor: int, frameCount: int): (request: Option<int>)
    ensures request.Some? <==> cursor < frameCount - 1
    ensures request.Some? ==> request.value == cursor + 1
  {
    if cursor < frameCount - 1 then Some(cursor + 1) else None
  }

  /** The cursor once the parent has honoured a request (or received none). */
  function Follow(cursor: int, request: Option<int>): (next: int) {
    request.GetOr(cursor)
  }

  predicate InRange(cursor: int, frameCount: int) {
    0 <= cursor < frameCount
  }

  /** The previous-frame button is disabled on the first frame: from a
      cursor that is not negative, exactly when pressing it would do
      nothing. */
  function PrevDisabled(cursor: int): (disabled: bool)
    ensures cursor >= 0 ==> (disabled <==> PrevFrame(cursor).None?)
  {
    cursor == 0
  }

  /** The next-frame button is disabled on the last frame: from a cursor
      not past the last frame, exactly when pressing it would do nothing. */
  function NextDisabled(cursor: int, frameCount: int): (disabled: bool)
    ensures cursor <= frameCount - 1 ==> (disabled <==> NextFrame(cursor, frameCount).None?)
  {
    cursor == frameCount - 1
  }

  /** Stepping keeps a valid cursor valid, and moves it by exactly one
      frame unless it sits at the boundary it moves towards. */
  lemma SteppingStaysInRange(cursor: int, frameCount: int)
    requires InRange(cursor, frameCount)
    ensures InRange(Follow(cursor, PrevFrame(cursor)), frameCount)
    ensures InRange(Follow(cursor, NextFrame(cursor, frameCount)), frameCount)
    ensures Follow(cursor, PrevFrame(cursor)) == if cursor == 0 then 0 else cursor - 1
    ensures Follow(cursor, NextFrame(cursor, frameCount)) ==
              if cursor == frameCount - 1 then cursor else cursor + 1
  {
  }

  /** `steps` presses of the previous-frame button. */
  function StepBack(cursor: int, steps: nat): (c: int)
    decreases steps
  {
    if steps == 0 then cursor
    else
      var c := StepBack(cursor, steps - 1);
      Follow(c, PrevFrame(c))
  }

  /** `steps` presses of the next-frame button. */
  function StepForward(cursor: int, frameCount: int, steps: nat): (c: int)
    decreases steps
  {
    if steps == 0 then cursor
    else
      var c := StepForward(cursor, frameCount, steps - 1);
      Follow(c, NextFrame(c, frameCount))
  }

  /** Stepping clamps rather than wraps, and any number of steps in one
      direction ends on the boundary frame. */
  lemma {:induction false} RepeatedStepsClamp(cursor: int, frameCount: int, steps: nat)
    requires InRange(cursor, frameCount)
    ensures StepBack(cursor, steps) == if cursor >= steps then cursor - steps else 0
    ensures StepForward(cursor, frameCount, steps) ==
              if cursor + steps <= frameCount - 1 then cursor + steps else frameCount - 1
    decreases steps
  {
    if steps > 0 {
      RepeatedStepsClamp(cursor, frameCount, steps - 1);
      var back := StepBack(cursor, steps - 1);
      var forward := StepForward(cursor, frameCount, steps - 1);
      assert InRange(back, frameCount) && InRange(forward, frameCount);
      SteppingStaysInRange(back, frameCount);
      SteppingStaysInRange(forward, frameCount);
    }
  }

  /** With no frames the cursor sits at 0, past the last frame: the
      next-frame button stays enabled, yet pressing it asks for nothing. */
  lemma EmptyBatchNextEnabledButInert()
    ensures !NextDisabled(0, 0) && NextFrame(0, 0).None?
    ensures PrevDisabled(0) && PrevFrame(0).None?
  {
  }

  /** Previous then next (and next then previous) returns to the same frame
      away from the boundaries. */
  lemma StepRoundTrip(cursor: int, frameCount: int)
    requires InRange(cursor, frameCount)
    ensures cursor > 0 ==>
      var back := Follow(cursor, PrevFrame(cursor));
      Follow(back, NextFrame(back, frameCount)) == cursor
    ensures cursor < frameCount - 1 ==>
      var forward := Follow(cursor, NextFrame(cursor, frameCount));
      Follow(forward, PrevFrame(forward)) == cursor
  {
  }

  /** The instants the frame labels show: `frameCount` entries, two minutes
      apart, the last one at `now` (a negative count gives no entries). */
  function LabelInstants(frameCount: int, now: int): (r: seq<int>)
    ensures |r| == if frameCount > 0 then frameCount else 0
    ensures EvenlySpaced(r, RadarApi.MockSpacingMs)
    ensures |r| > 0 ==> r[|r| - 1] == now
  {
    var n := if frameCount > 0 then frameCount else 0;
    seq(n, i requires 0 <= i < n => now - (n - 1 - i) * 2 * 60 * 1000)
  }

  /** The labels are strictly increasing, and they are exactly the instants
      of the synthetic frame batch of the same size made at the same `now`. */
  lemma LabelsMatchMockFrames(frameCount: int, now: int)
    ensures Ascending(LabelInstants(frameCount, now))
    ensures LabelInstants(frameCount, now) == Timestamps(RadarApi.MockFrames(frameCount, now))
  {
    EvenlySpacedAscending(LabelInstants(frameCount, now), RadarApi.MockSpacingMs);
    var r, m := LabelInstants(frameCount, now), Timestamps(RadarApi.MockFrames(frameCount, now));
    forall i | 0 <= i < |r|
      ensures r[i] == m[i]
    {
      RadarApi.MockFrameIndex(frameCount, now, i);
    }
  }

  /** `frameTimestamps[i] || "--:--"`: a missing or empty label shows the
      placeholder. */
  function ShownLabel(labels: seq<string>, i: int): (text: string)
    ensures text != ""
    ensures 0 <= i < |labels| && labels[i] != "" ==> text == labels[i]
    ensures !(0 <= i < |labels| && labels[i] != "") ==> text == MissingLabel
  {
    if 0 <= i < |labels| && labels[i] != "" then labels[i] else MissingLabel
  }

  /** The one-based position shown as "Frame k of n". */
  function FrameCounter(cursor: int, frameCount: int): (shown: (int, int))
    ensures shown.1 == frameCount
    ensures InRange(cursor, frameCount) ==> 1 <= shown.0 <= shown.1 == frameCount
    ensures shown.0 - 1 == cursor
  {
    (cursor + 1, frameCount)
  }

  datatype SpeedOption = SpeedOption(value: real, text: string)

  /** The fixed speed choices, slowest first. */
  const SpeedOptions: seq<SpeedOption> := [
    SpeedOption(0.5, "0.5x"), SpeedOption(1.0, "1x"),
    SpeedOption(1.5, "1.5x"), SpeedOption(2.0, "2x")]

  /** An option's button is highlighted when it equals the current speed. */
  predicate Highlighted(option: SpeedOption, speed: real) {
    option.value == speed
  }

  /** The positions of the highlighted buttons for a given speed. */
  function HighlightedOptions(speed: real): (r: set<int>) {
    set i | 0 <= i < |SpeedOptions| && Highlighted(SpeedOptions[i], speed)
  }

  /** At most one option is highlighted, and one is exactly when the speed
      is one of 0.5, 1, 1.5 and 2; any other speed highlights none (the
      widget neither rejects nor rounds it). */
  lemma SpeedHighlight(speed: real)
    ensures |HighlightedOptions(speed)| <= 1
    ensures |HighlightedOptions(speed)| == 1 <==> speed in {0.5, 1.0, 1.5, 2.0}
  {
    var r := HighlightedOptions(speed);
    if speed == 0.5 {
      assert r == {0};
    } else if speed == 1.0 {
      assert r == {1};
    } else if speed == 1.5 {
      assert r == {2};
    } else if speed == 2.0 {
      assert r == {3};
    } else {
      assert r == {};
    }
  }

  /** Choosing a speed button highlights that button and no other. */
  lemma ChosenSpeedHighlighted(i: int)
    requires 0 <= i < |SpeedOptions|
    ensures HighlightedOptions(SpeedOptions[i].value) == {i}
  {
    var r := HighlightedOptions(SpeedOptions[i].value);
    if i == 0 {
      assert r == {0};
    } else if i == 1 {
      assert r == {1};
    } else if i == 2 {
      assert r == {2};
    } else {
      assert r == {3};
    }
  }
}

=== FILE: app.dfy ===
/** The application shell of src/App.tsx: the refresh state machine behind
    the header and the map. The asynchronous `fetchRadarData` is split into
    two events, its start and its completion, and the interval timer into
    explicit ticks carrying the current instant. */
module App {
  import opened Maybe
  import opened RadarTypes
  import opened RadarApi
  import HeaderBar

  /** The auto-refresh cadence, in seconds as the source states it. */
  const RefreshIntervalSeconds: int := 120
  /** The same cadence in milliseconds, the unit of the interval timer. */
  const RefreshPeriodMs: int := RefreshIntervalSeconds * 1000
  const InitialOpacity: real := 0.7
  /** Recorded when something other than an `Error` instance is thrown. */
  const FetchFailedMessage: string := "Failed to fetch radar data"
  /** The footer's data source when the frame names none. */
  const DefaultSource: string := "MRMS"

  /** The component state of the application, plus two facts about its
      environment: when the armed refresh interval fires next (none when no
      interval is armed), and how many `fetchRadarData` calls have started
      and not yet finished. */
  datatype AppState = AppState(
    radarData: Option<RadarData>,
    isLoading: bool,
    isRefreshing: bool,
    isBackendConnected: bool,
    opacity: real,
    autoRefresh: bool,
    error: Option<string>,
    nextTick: Option<int>,
    inFlight: nat)

  /** The state before any effect has run. */
  const Initial: AppState := AppState(None, true, false, false, InitialOpacity, true, None, None, 0)

  /** How one `fetchRadarData` call ends: with a frame and the health
      probe's answer, or with the value `getLatestRadarData` threw (the
      health probe is then never sent). */
  datatype FetchOutcome = Fetched(data: RadarData, healthy: bool) | Threw(thrown: Thrown)

  /** The outcome of a fetch cycle, given the transport's answers to the
      latest-frame request and to the health probe. */
  function FetchOutcomeOf(latest: Exchange<ApiResponse<RadarData>>, health: Exchange<()>, now: int): (o: FetchOutcome)
    ensures o.Threw? <==> GetLatestRadarData(latest, now).Err?
    ensures o.Fetched? ==> GetLatestRadarData(latest, now) == Ok(o.data) && o.healthy == CheckHealth(health)
    ensures o.Threw? ==> o.thrown == GetLatestRadarData(latest, now).error
    ensures o.Threw? ==> o.thrown.ErrorInstance? && o.thrown.message != ""
  {
    match GetLatestRadarData(latest, now)
    case Ok(data) => Fetched(data, CheckHealth(health))
    case Err(thrown) => Threw(thrown)
  }

  /** The message recorded for a thrown value. */
  function ErrorMessage(thrown: Thrown): (m: string)
    ensures thrown.ErrorInstance? ==> m == thrown.message
    ensures thrown.NonErrorValue? ==> m == FetchFailedMessage
  {
    match thrown
    case ErrorInstance(message) => message
    case NonErrorValue => FetchFailedMessage
  }

  /** The start of `fetchRadarData(showRefreshing)`: raise the requested
      busy flag, clear the error, and nothing else. */
  function BeginFetch(s: AppState, showRefreshing: bool): (t: AppState)
    ensures showRefreshing ==> t.isRefreshing && t.isLoading == s.isLoading
    ensures !showRefreshing ==> t.isLoading && t.isRefreshing == s.isRefreshing
    ensures t.error.None?
    ensures t.inFlight == s.inFlight + 1
    ensures t.radarData == s.radarData && t.isBackendConnected == s.isBackendConnected
    ensures t.opacity == s.opacity && t.autoRefresh == s.autoRefresh && t.nextTick == s.nextTick
  {
    var flagged := if showRefreshing then s.(isRefreshing := true) else s.(isLoading := true);
    flagged.(error := None, inFlight := s.inFlight + 1)
  }

  /** The end of one `fetchRadarData` call. A frame replaces the data and
      the health answer the connection flag; a thrown value only records
      its message. Either way both busy flags drop, even if another fetch
      is still running. */
  function CompleteFetch(s: AppState, outcome: FetchOutcome): (t: AppState)
    requires s.inFlight > 0
    ensures !t.isLoading && !t.isRefreshing
    ensures t.inFlight == s.inFlight - 1
    ensures outcome.Fetched? ==>
      t.radarData == Some(outcome.data) && t.isBackendConnected == outcome.healthy && t.error == s.error
    ensures outcome.Threw? ==>
      t.error == Some(ErrorMessage(outcome.thrown))
      && t.radarData == s.radarData && t.isBackendConnected == s.isBackendConnected
    ensures t.opacity == s.opacity && t.autoRefresh == s.autoRefresh && t.nextTick == s.nextTick
  {
    var settled := match outcome
      case Fetched(data, healthy) => s.(radarData := Some(data), isBackendConnected := healthy)
      case Threw(thrown) => s.(error := Some(ErrorMessage(thrown)));
    settled.(isLoading := false, isRefreshing := false, inFlight := s.inFlight - 1)
  }

  /** Arms the refresh interval at `now` when auto-refresh is on. */
  function ArmInterval(s: AppState, now: int): (t: AppState) {
    s.(nextTick := if s.autoRefresh then Some(now + RefreshPeriodMs) else None)
  }

  /** The mount effects, in order: the initial load (without the refreshing
      indicator), then the auto-refresh interval. The result is the initial
      state with one load running and the first firing one period away. */
  function Mount(now: int): (s: AppState)
    ensures s.isLoading && !s.isRefreshing && s.inFlight == 1
    ensures s.nextTick == Some(now + RefreshPeriodMs)
    ensures s.radarData.None? && !s.isBackendConnected && s.error.None?
    ensures s.autoRefresh && s.opacity == InitialOpacity
  {
    ArmInterval(BeginFetch(Initial, false), now)
  }

  /** The interval callback: once due, it starts `fetchRadarData(true)` and
      the next firing is one period later; before that, or with no interval
      armed, it changes nothing. */
  function Tick(s: AppState, now: int): (t: AppState)
    ensures !(s.nextTick.Some? && s.nextTick.value <= now) ==> t == s
    ensures s.nextTick.Some? && s.nextTick.value <= now ==>
      && t.isRefreshing && t.isLoading == s.isLoading && t.error.None?
      && t.inFlight == s.inFlight + 1
      && t.nextTick == Some(s.nextTick.value + RefreshPeriodMs)
      && t.radarData == s.radarData && t.isBackendConnected == s.isBackendConnected
      && t.opacity == s.opacity && t.autoRefresh == s.autoRefresh
  {
    match s.nextTick
    case Some(due) =>
      if due <= now then BeginFetch(s.(nextTick := Some(due + RefreshPeriodMs)), true) else s
    case None => s
  }

  /** `handleRefresh`: starts a fetch with the refreshing indicator,
      whatever is already running. */
  function HandleRefresh(s: AppState): (t: AppState)
    ensures t.isRefreshing && t.isLoading == s.isLoading && t.error.None?
    ensures t.inFlight == s.inFlight + 1
    ensures t.radarData == s.radarData && t.isBackendConnected == s.isBackendConnected
    ensures t.opacity == s.opacity && t.autoRefresh == s.autoRefresh && t.nextTick == s.nextTick
  {
    BeginFetch(s, true)
  }

  /** `handleAutoRefreshToggle` and the effect it triggers: turning
      auto-refresh off cancels the interval; turning it on arms a new one
      without fetching. Nothing else changes. */
  function ToggleAutoRefresh(s: AppState, now: int): (t: AppState)
    ensures t.autoRefresh == !s.autoRefresh
    ensures t.nextTick.Some? <==> t.autoRefresh
    ensures t.autoRefresh ==> t.nextTick.value == now + RefreshPeriodMs
    ensures t == s.(autoRefresh := t.autoRefresh, nextTick := t.nextTick)
  {
    if s.autoRefresh then s.(autoRefresh := false, nextTick := None)
    else s.(autoRefresh := true, nextTick := Some(now + RefreshPeriodMs))
  }

  /** `handleOpacityChange`. */
  function ChangeOpacity(s: AppState, opacity: real): (t: AppState) {
    s.(opacity := opacity)
  }

  /** Everything that can happen once the application is mounted. A click
      is on the header's refresh button or on the error panel's "Try
      Again", which both call `handleRefresh`. */
  datatype Event =
    | RefreshClicked
    | TimerTick(now: int)
    | AutoRefreshToggled(now: int)
    | OpacityChanged(opacity: real)
    | FetchCompleted(latest: Exchange<ApiResponse<RadarData>>, health: Exchange<()>, now: int)

  /** A completion needs a fetch to complete, and a click needs an enabled
      button: the header's is disabled while a refresh is shown as running,
      and "Try Again" is only on screen with an error, which (see
      `Consistent`) never coexists with a busy flag. */
  predicate Enabled(s: AppState, e: Event) {
    && (e.FetchCompleted? ==> s.inFlight > 0)
    && (e.RefreshClicked? ==> !s.isRefreshing)
  }

  function Step(s: AppState, e: Event): (t: AppState)
    requires Enabled(s, e)
  {
    match e
    case RefreshClicked => HandleRefresh(s)
    case TimerTick(now) => Tick(s, now)
    case AutoRefreshToggled(now) => ToggleAutoRefresh(s, now)
    case OpacityChanged(opacity) => ChangeOpacity(s, opacity)
    case FetchCompleted(latest, health, now) => CompleteFetch(s, FetchOutcomeOf(latest, health, now))
  }

  /** Runs a sequence of events; none when an event arrives that is not
      enabled. */
  function Run(s: AppState, events: seq<Event>): (r: Option<AppState>)
    decreases |events|
  {
    if |events| == 0 then Some(s)
    else if !Enabled(s, events[0]) then None
    else Run(Step(s, events[0]), events[1..])
  }

  /** What holds of every mounted state: an interval is armed exactly while
      auto-refresh is on, a raised busy flag means some fetch is running,
      and a recorded error is never the empty string and never shown
      together with a busy flag. */
  predicate Consistent(s: AppState) {
    && (s.nextTick.Some? <==> s.autoRefresh)
    && (s.isLoading || s.isRefreshing ==> s.inFlight > 0)
    && (s.error.Some? ==> s.error.value != "" && !s.isLoading && !s.isRefreshing)
  }

  /** The initial state of App.tsx, and what the page shows once mounted:
      a consistent state, the loading spinner, the DEMO badge and an
      enabled refresh button. */
  lemma MountStartsInitialLoad(now: int)
    ensures Initial.radarData.None? && Initial.isLoading && !Initial.isRefreshing
    ensures !Initial.isBackendConnected && Initial.autoRefresh && Initial.error.None?
    ensures var s := Mount(now);
      && Consistent(s)
      && SelectView(s) == Loading
      && HeaderBar.RenderHeader(s.radarData, s.isBackendConnected, s.isRefreshing).badge == "DEMO"
      && !HeaderBar.RenderHeader(s.radarData, s.isBackendConnected, s.isRefreshing).refreshDisabled
  {
  }

  lemma StepPreservesConsistency(s: AppState, e: Event)
    requires Consistent(s) && Enabled(s, e)
    ensures Consistent(Step(s, e))
  {
  }

  /** Every state reachable after mounting is consistent. */
  lemma {:induction false} RunPreservesConsistency(s: AppState, events: seq<Event>)
    requires Consistent(s)
    ensures Run(s, events).Some? ==> Consistent(Run(s, events).value)
    decreases |events|
  {
    if |events| > 0 && Enabled(s, events[0]) {
      StepPreservesConsistency(s, events[0]);
      RunPreservesConsistency(Step(s, events[0]), events[1..]);
    }
  }

  /** A fetch cycle that overlaps no other: success installs the frame and
      the health answer and leaves no error; failure records the message
      and keeps the previous frame and connection flag. */
  lemma IsolatedFetchCycle(s: AppState, showRefreshing: bool, outcome: FetchOutcome)
    requires s.inFlight == 0
    ensures var t := CompleteFetch(BeginFetch(s, showRefreshing), outcome);
      && !t.isLoading && !t.isRefreshing && t.inFlight == 0
      && (outcome.Fetched? ==>
            t.radarData == Some(outcome.data) && t.isBackendConnected == outcome.healthy && t.error.None?)
      && (outcome.Threw? ==>
            t.error == Some(ErrorMessage(outcome.thrown))
            && t.radarData == s.radarData && t.isBackendConnected == s.isBackendConnected)
  {
  }

  /** A click is possible exactly when the header's button is enabled, and
      whenever "Try Again" is on screen. */
  lemma ClickableWhenButtonShown(s: AppState)
    requires Consistent(s)
    ensures Enabled(s, RefreshClicked) <==> !HeaderBar.RenderHeader(s.radarData, s.isBackendConnected, s.isRefreshing).refreshDisabled
    ensures SelectView(s).ErrorPanel? ==> Enabled(s, RefreshClicked)
  {
  }

  /** The disabled button does not stop a timer firing during a refresh:
      it starts a second fetch, and the first completion lowers the
      indicator while the other fetch is still out, which re-enables the
      button. */
  lemma TickDuringRefreshOverlaps(s: AppState, now: int, outcome: FetchOutcome)
    requires Consistent(s) && s.isRefreshing && s.autoRefresh && s.nextTick.value <= now
    ensures var t := Tick(s, now);
      && t.inFlight == s.inFlight + 1 >= 2
      && var u := CompleteFetch(t, outcome);
      && !u.isRefreshing && u.inFlight == s.inFlight > 0
      && !HeaderBar.RenderHeader(u.radarData, u.isBackendConnected, u.isRefreshing).refreshDisabled
  {
  }

  /** The initial load does not disable the button: a click during it
      starts a second fetch, and the first completion clears both busy
      flags while one fetch is still out. */
  lemma ClickDuringInitialLoadOverlaps(now: int, outcome: FetchOutcome)
    ensures var s := Mount(now);
      && Enabled(s, RefreshClicked)
      && var t := Step(s, RefreshClicked);
      && t.isLoading && t.isRefreshing && t.inFlight == 2
      && var u := CompleteFetch(t, outcome);
      && !u.isLoading && !u.isRefreshing && u.inFlight == 1
  {
  }

  /** A failed latest-frame request ends its fetch cycle with the
      provider's own error text recorded, or the default message when the
      provider names none. */
  lemma FailedFetchRecordsProviderError(s: AppState, latest: Exchange<ApiResponse<RadarData>>, health: Exchange<()>, now: int)
    requires s.inFlight > 0 && GetLatestRadarData(latest, now).Err?
    ensures Step(s, FetchCompleted(latest, health, now)).error ==
              Some(FailureMessage(latest.body.error, LatestFailureMessage))
  {
  }

  /** With two fetches out, a failure followed by a success leaves the
      failure's message in place: only starting a fetch clears the error. */
  lemma StaleErrorSurvivesLaterSuccess(s: AppState, thrown: Thrown, data: RadarData, healthy: bool)
    requires s.inFlight == 2
    ensures CompleteFetch(CompleteFetch(s, Threw(thrown)), Fetched(data, healthy)).error == Some(ErrorMessage(thrown))
  {
  }

  /** The timer starts a fetch exactly when an interval is armed (that is,
      auto-refresh is on) and due, and then re-arms one period later. */
  lemma TickFiresOnlyWhenDue(s: AppState, now: int)
    requires Consistent(s)
    ensures var t := Tick(s, now);
      && (t != s <==> s.autoRefresh && s.nextTick.value <= now)
      && (t != s ==> t.isRefreshing && t.inFlight == s.inFlight + 1
                     && t.nextTick == Some(s.nextTick.value + RefreshPeriodMs))
  {
    if s.nextTick.Some? && s.nextTick.value <= now {
      assert Tick(s, now).inFlight == s.inFlight + 1;
    }
  }

  /** Turning auto-refresh off cancels the interval: no later tick does
      anything. */
  lemma ToggleOffCancelsTimer(s: AppState, now: int, later: int)
    requires Consistent(s) && s.autoRefresh
    ensures var t := ToggleAutoRefresh(s, now);
      !t.autoRefresh && Tick(t, later) == t && Consistent(t)
  {
  }

  /** Turning auto-refresh on arms the interval without fetching: nothing
      starts before a full period has passed, and a fetch starts at the
      period's end. */
  lemma ToggleOnArmsWithoutFetching(s: AppState, now: int, later: int)
    requires !s.autoRefresh
    ensures var t := ToggleAutoRefresh(s, now);
      && t.autoRefresh && t.inFlight == s.inFlight
      && t.isLoading == s.isLoading && t.isRefreshing == s.isRefreshing
      && (later < now + RefreshPeriodMs ==> Tick(t, later) == t)
      && Tick(t, now + RefreshPeriodMs).inFlight == s.inFlight + 1
  {
  }

  /** The three things the centre of the page can show. */
  datatype View = Loading | ErrorPanel(message: string) | Map(data: Option<RadarData>, opacity: real)

  /** The render choice: the spinner only while loading without data, then
      the error panel for a (non-empty) error, else the map. */
  function SelectView(s: AppState): (v: View)
    ensures v.Loading? <==> s.isLoading && s.radarData.None?
    ensures v.ErrorPanel? <==> !(s.isLoading && s.radarData.None?) && s.error.Some? && s.error.value != ""
    ensures v.ErrorPanel? ==> v.message == s.error.value
    ensures v.Map? ==> v.data == s.radarData && v.opacity == s.opacity
  {
    if s.isLoading && s.radarData.None? then Loading
    else if s.error.Some? && s.error.value != "" then ErrorPanel(s.error.value)
    else Map(s.radarData, s.opacity)
  }

  /** In a consistent state the choice depends on the loading flag, the
      data and the presence of an error alone; the error panel wins over
      data that is already there, and is never shown while a fetch is
      shown as running. */
  lemma ViewSelection(s: AppState)
    requires Consistent(s)
    ensures SelectView(s).Loading? <==> s.isLoading && s.radarData.None?
    ensures SelectView(s).ErrorPanel? <==> !(s.isLoading && s.radarData.None?) && s.error.Some?
    ensures SelectView(s).Map? <==> !(s.isLoading && s.radarData.None?) && s.error.None?
    ensures SelectView(s).ErrorPanel? ==> SelectView(s).message == s.error.value
    ensures SelectView(s).ErrorPanel? ==> !s.isLoading && !s.isRefreshing
  {
  }

  /** When the first load throws, the error panel appears; its "Try Again"
      button refreshes without the loading flag, so while that retry runs
      the map is shown with no data at all. */
  lemma RetryAfterFailedLoadShowsEmptyMap(mountedAt: int, latest: Exchange<ApiResponse<RadarData>>, health: Exchange<()>, now: int)
    requires GetLatestRadarData(latest, now).Err?
    ensures var failed := Step(Mount(mountedAt), FetchCompleted(latest, health, now));
      && SelectView(failed).ErrorPanel?
      && Enabled(failed, RefreshClicked)
      && SelectView(Step(failed, RefreshClicked)) == Map(None, InitialOpacity)
  {
  }

  /** A failed refresh after a successful load hides the frame behind the
      error panel, although the frame is still held. */
  lemma FailedRefreshHidesFrame(mountedAt: int, first: Exchange<ApiResponse<RadarData>>, second: Exchange<ApiResponse<RadarData>>, health: Exchange<()>, now: int)
    requires GetLatestRadarData(first, now).Ok? && GetLatestRadarData(second, now).Err?
    ensures var loaded := Step(Mount(mountedAt), FetchCompleted(first, health, now));
      && Enabled(loaded, RefreshClicked)
      && var failed := Step(Step(loaded, RefreshClicked), FetchCompleted(second, health, now));
      && SelectView(loaded) == Map(Some(GetLatestRadarData(first, now).value), InitialOpacity)
      && SelectView(failed).ErrorPanel?
      && failed.radarData == loaded.radarData
  {
  }

  /** With the provider unreachable, a fetch cycle still installs a frame:
      the synthetic one, with the continental coverage box, and the header
      reads DEMO. */
  lemma UnreachableProviderShowsDemo(s: AppState, now: int)
    requires s.inFlight > 0
    ensures var t := Step(s, FetchCompleted(NoResponse, NoResponse, now));
      && t.radarData == Some(MockRadarData(now))
      && t.radarData.value.bounds == ContinentalBounds
      && !t.isBackendConnected
      && HeaderBar.RenderHeader(t.radarData, t.isBackendConnected, t.isRefreshing).badge == "DEMO"
  {
  }

  /** The footer's source line: the frame's metadata source, or "MRMS"
      when there is no frame, no metadata or an empty source. */
  function FooterSource(s: AppState): (source: string)
    ensures source != ""
    ensures s.radarData.Some? && s.radarData.value.metadata.Some? && s.radarData.value.metadata.value.source != ""
            ==> source == s.radarData.value.metadata.value.source
    ensures !(s.radarData.Some? && s.radarData.value.metadata.Some? && s.radarData.value.metadata.value.source != "")
            ==> source == DefaultSource
  {
    match s.radarData
    case Some(data) =>
      (match data.metadata
       case Some(metadata) => if metadata.source != "" then metadata.source else DefaultSource
       case None => DefaultSource)
    case None => DefaultSource
  }
}

=== FILE: decimal.dfy ===
/** Decimal rendering of non-negative integers, as JavaScript's string
    conversion produces it when a whole number is concatenated to a string
    (`"…Frame+" + i`, `` `${diffMins} minutes ago` ``). */
module Decimal {

  predicate IsDigit(c: char) {
    '0' <= c <= '9'
  }

  predicate AllDigits(s: string) {
    forall i :: 0 <= i < |s| ==> IsDigit(s[i])
  }

  function DigitChar(d: nat): (c: char)
    requires d < 10
    ensures IsDigit(c)
  {
    "0123456789"[d]
  }

  function DigitValue(c: char): (d: nat)
    requires IsDigit(c)
    ensures d < 10
  {
    (c - '0') as nat
  }

  lemma DigitRoundTrip(d: nat)
    requires d < 10
    ensures DigitValue(DigitChar(d)) == d
  {
    var s := "0123456789";
    assert s[d] as int - '0' as int == d;
  }

  /** Shortest decimal representation of `n`, most significant digit first. */
  function DecimalString(n: nat): (r: string)
    ensures |r| >= 1
    ensures AllDigits(r)
    ensures |r| > 1 ==> r[0] != '0'
    decreases n
  {
    if n < 10 then [DigitChar(n)]
    else DecimalString(n / 10) + [DigitChar(n % 10)]
  }

  /** Reads a digit string back as a number; the empty string reads as zero. */
  function ParseDecimal(s: string): (n: nat)
    requires AllDigits(s)
    decreases |s|
  {
    if |s| == 0 then 0
    else 10 * ParseDecimal(s[..|s| - 1]) + DigitValue(s[|s| - 1])
  }

  /** Reading a rendered number gives the number back. */
  lemma {:induction false} ParseDecimalString(n: nat)
    ensures ParseDecimal(DecimalString(n)) == n
    decreases n
  {
    var r := DecimalString(n);
    if n < 10 {
      DigitRoundTrip(n);
      assert r[..|r| - 1] == [];
    } else {
      var prefix := DecimalString(n / 10);
      assert r == prefix + [DigitChar(n % 10)];
      assert r[..|r| - 1] == prefix;
      DigitRoundTrip(n % 10);
      ParseDecimalString(n / 10);
    }
  }

  /** Distinct numbers render as distinct strings. */
  lemma DecimalStringInjective(a: nat, b: nat)
    requires a != b
    ensures DecimalString(a) != DecimalString(b)
  {
    ParseDecimalString(a);
    ParseDecimalString(b);
  }
}

=== FILE: header_bar.dfy ===
/** The page header of src/components/Header.tsx: the LIVE/DEMO badge, the
    last-update card and the refresh button. Locale formatting of a
    timestamp is left to an opaque `localeFormat` function. */
module HeaderBar {
  import opened Maybe
  import opened RadarTypes

  const NoTimestamp: string := "N/A"
  const NoTime: string := "--:--"

  /** A JavaScript string is falsy when it is missing or empty. */
  predicate Blank(text: Option<string>) {
    text.None? || text.value == ""
  }

  /** `formatTimestamp`: "N/A" for a missing or empty timestamp, the
      locale's date-and-time text otherwise. */
  function FormatTimestamp(timestamp: Option<string>, localeFormat: string -> string): (text: string)
    ensures Blank(timestamp) ==> text == NoTimestamp
    ensures !Blank(timestamp) ==> text == localeFormat(timestamp.value)
  {
    if Blank(timestamp) then NoTimestamp else localeFormat(timestamp.value)
  }

  /** `formatTimeOnly`: "--:--" for a missing or empty timestamp, the
      locale's time-of-day text otherwise. */
  function FormatTimeOnly(timestamp: Option<string>, localeFormat: string -> string): (text: string)
    ensures Blank(timestamp) ==> text == NoTime
    ensures !Blank(timestamp) ==> text == localeFormat(timestamp.value)
  {
    if Blank(timestamp) then NoTime else localeFormat(timestamp.value)
  }

  /** The header's visible state. */
  datatype HeaderView = HeaderView(
    badge: string,
    lastUpdateShown: bool,
    refreshDisabled: bool,
    refreshLabel: string)

  /** What the header shows for a given set of props. Each indicator
      follows exactly one prop: the badge reads LIVE only for a connected
      backend and DEMO otherwise, the last-update card needs data, and the
      button is disabled and relabelled exactly while a refresh is shown as
      running. */
  function RenderHeader(radarData: Option<RadarData>, isBackendConnected: bool, isRefreshing: bool): (v: HeaderView)
    ensures v.badge == "LIVE" <==> isBackendConnected
    ensures v.badge == "DEMO" <==> !isBackendConnected
    ensures v.lastUpdateShown <==> radarData.Some?
    ensures v.refreshDisabled <==> isRefreshing
    ensures v.refreshLabel == "Updating..." <==> isRefreshing
    ensures v.refreshLabel == "Refresh" <==> !isRefreshing
  {
    HeaderView(
      if isBackendConnected then "LIVE" else "DEMO",
      radarData.Some?,
      isRefreshing,
      if isRefreshing then "Updating..." else "Refresh")
  }
}

=== FILE: helpers.dfy ===
/** The display helpers of src/utils/helpers.ts: reflectivity classification,
    relative-age phrases, staleness and the file-size unit. */
module Helpers {
  import opened Decimal

  // ---------------------------------------------------------------------
  // Reflectivity classification
  // ---------------------------------------------------------------------

  /** Lower edges (dBZ) of the colour bands above the transparent one. */
  const ColorCutoffs: seq<real> := [5.0, 10.0, 20.0, 30.0, 40.0, 45.0, 50.0, 55.0, 60.0, 65.0, 70.0]

  /** One colour per band: index `b` is used from `ColorCutoffs[b - 1]` up to
      (excluding) `ColorCutoffs[b]`. */
  const ColorPalette: seq<string> := [
    "transparent", "#04e9e7", "#019ff4", "#0300f4", "#02fd02", "#01c501",
    "#008e00", "#fdf802", "#e5bc00", "#fd9500", "#fd0000", "#d40000"]

  /** Lower edges (dBZ) of the intensity labels above "No Precipitation". */
  const LabelCutoffs: seq<real> := [5.0, 20.0, 30.0, 40.0, 50.0, 60.0, 70.0]

  const IntensityLabels: seq<string> := [
    "No Precipitation", "Very Light", "Light", "Moderate",
    "Heavy", "Very Heavy", "Intense", "Extreme"]

  predicate StrictlyIncreasing(cuts: seq<real>) {
    forall i, j :: 0 <= i < j < |cuts| ==> cuts[i] < cuts[j]
  }

  predicate Distinct(names: seq<string>) {
    forall i, j :: 0 <= i < j < |names| ==> names[i] != names[j]
  }

  /** The band of `x` in a cutoff table: how many leading cutoffs `x` has
      reached. Band 0 lies below every cutoff, band `|cuts|` at or above
      the last one. */
  function Band(cuts: seq<real>, x: real): (b: nat)
    ensures b <= |cuts|
    ensures forall i :: 0 <= i < b ==> cuts[i] <= x
    ensures b < |cuts| ==> x < cuts[b]
    decreases |cuts|
  {
    if |cuts| == 0 || x < cuts[0] then 0 else 1 + Band(cuts[1..], x)
  }

  /** A larger reading never falls in a lower band. */
  lemma {:induction false} BandMonotone(cuts: seq<real>, x: real, y: real)
    requires x <= y
    ensures Band(cuts, x) <= Band(cuts, y)
    decreases |cuts|
  {
    if |cuts| > 0 && x >= cuts[0] {
      BandMonotone(cuts[1..], x, y);
    }
  }

  /** In an increasing table the band is the only index whose interval
      contains `x`. */
  lemma BandUnique(cuts: seq<real>, x: real, b: nat)
    requires StrictlyIncreasing(cuts)
    requires b <= |cuts|
    requires b == 0 || cuts[b - 1] <= x
    requires b == |cuts| || x < cuts[b]
    ensures Band(cuts, x) == b
  {
  }

  /** The colour table: increasing cutoffs and one distinct colour for
      each of its 12 bands. */
  lemma ColorTableWellFormed()
    ensures StrictlyIncreasing(ColorCutoffs) && |ColorPalette| == |ColorCutoffs| + 1 == 12
    ensures Distinct(ColorPalette)
  {
  }

  /** The label table: increasing cutoffs and one distinct name for each of
      its 8 bands. */
  lemma LabelTableWellFormed()
    ensures StrictlyIncreasing(LabelCutoffs) && |IntensityLabels| == |LabelCutoffs| + 1 == 8
    ensures Distinct(IntensityLabels)
  {
  }

  /** `getReflectivityColor`: the palette entry of the reading's band. */
  function ReflectivityColor(dbz: real): (color: string)
    ensures color == ColorPalette[Band(ColorCutoffs, dbz)]
  {
    ColorChainFollowsTable(dbz);
    ColorChain(dbz)
  }

  /** The threshold chain `getReflectivityColor` is written as. */
  function ColorChain(dbz: real): (color: string) {
    if dbz < 5.0 then "transparent"
    else if dbz < 10.0 then "#04e9e7"
    else if dbz < 20.0 then "#019ff4"
    else if dbz < 30.0 then "#0300f4"
    else if dbz < 40.0 then "#02fd02"
    else if dbz < 45.0 then "#01c501"
    else if dbz < 50.0 then "#008e00"
    else if dbz < 55.0 then "#fdf802"
    else if dbz < 60.0 then "#e5bc00"
    else if dbz < 65.0 then "#fd9500"
    else if dbz < 70.0 then "#fd0000"
    else "#d40000"
  }

  /** The chain agrees with the colour table: every reading gets the
      palette entry of its band. */
  lemma ColorChainFollowsTable(dbz: real)
    ensures ColorChain(dbz) == ColorPalette[Band(ColorCutoffs, dbz)]
  {
    ColorTableWellFormed();
    var b := if dbz < 5.0 then 0 else if dbz < 10.0 then 1 else if dbz < 20.0 then 2
      else if dbz < 30.0 then 3 else if dbz < 40.0 then 4 else if dbz < 45.0 then 5
      else if dbz < 50.0 then 6 else if dbz < 55.0 then 7 else if dbz < 60.0 then 8
      else if dbz < 65.0 then 9 else if dbz < 70.0 then 10 else 11;
    assert ColorChain(dbz) == ColorPalette[b];
    BandUnique(ColorCutoffs, dbz, b);
  }

  /** `getReflectivityLabel`: the intensity name of the reading's band. */
  function ReflectivityLabel(dbz: real): (name: string)
    ensures name == IntensityLabels[Band(LabelCutoffs, dbz)]
  {
    LabelChainFollowsTable(dbz);
    LabelChain(dbz)
  }

  /** The threshold chain `getReflectivityLabel` is written as. */
  function LabelChain(dbz: real): (name: string) {
    if dbz < 5.0 then "No Precipitation"
    else if dbz < 20.0 then "Very Light"
    else if dbz < 30.0 then "Light"
    else if dbz < 40.0 then "Moderate"
    else if dbz < 50.0 then "Heavy"
    else if dbz < 60.0 then "Very Heavy"
    else if dbz < 70.0 then "Intense"
    else "Extreme"
  }

  /** The chain agrees with the label table: every reading gets the name of
      its band. */
  lemma LabelChainFollowsTable(dbz: real)
    ensures LabelChain(dbz) == IntensityLabels[Band(LabelCutoffs, dbz)]
  {
    LabelTableWellFormed();
    var b := if dbz < 5.0 then 0 else if dbz < 20.0 then 1 else if dbz < 30.0 then 2
      else if dbz < 40.0 then 3 else if dbz < 50.0 then 4 else if dbz < 60.0 then 5
      else if dbz < 70.0 then 6 else 7;
    assert LabelChain(dbz) == IntensityLabels[b];
    BandUnique(LabelCutoffs, dbz, b);
  }

  /** The colour scale only ever moves up the palette as reflectivity grows,
      and the same holds for the intensity labels. */
  lemma ReflectivityBandsMonotone(x: real, y: real, i: nat, j: nat)
    requires x <= y
    requires i < |ColorPalette| && j < |ColorPalette|
    requires ReflectivityColor(x) == ColorPalette[i] && ReflectivityColor(y) == ColorPalette[j]
    ensures i <= j
  {
    ColorTableWellFormed();
    BandMonotone(ColorCutoffs, x, y);
  }

  lemma IntensityLabelsMonotone(x: real, y: real, i: nat, j: nat)
    requires x <= y
    requires i < |IntensityLabels| && j < |IntensityLabels|
    requires ReflectivityLabel(x) == IntensityLabels[i] && ReflectivityLabel(y) == IntensityLabels[j]
    ensures i <= j
  {
    LabelTableWellFormed();
    BandMonotone(LabelCutoffs, x, y);
  }

  /** Both scales are total; readings below 5 dBZ show nothing, and
      readings of 70 dBZ or more get the top colour and name. */
  lemma ReflectivityScaleEnds(dbz: real)
    ensures dbz < 5.0 ==> ReflectivityColor(dbz) == "transparent" && ReflectivityLabel(dbz) == "No Precipitation"
    ensures dbz >= 70.0 ==> ReflectivityColor(dbz) == "#d40000" && ReflectivityLabel(dbz) == "Extreme"
  {
  }

  // ---------------------------------------------------------------------
  // Relative age
  // ---------------------------------------------------------------------

  /** The coarsest whole unit `timeAgo` reports an age in. */
  datatype Elapsed = JustNow | Minutes(n: nat) | Hours(n: nat) | Days(n: nat)

  /** Classifies an age in milliseconds (negative for a future instant)
      with floored divisions by a minute (60000), an hour (3600000) and a
      day (86400000). Each unit covers exactly its range, and the count is
      the number of whole units elapsed. */
  function ElapsedSince(diffMs: int): (e: Elapsed)
    ensures e.JustNow? <==> diffMs < 60000
    ensures e.Minutes? <==> 60000 <= diffMs < 3600000
    ensures e.Hours? <==> 3600000 <= diffMs < 86400000
    ensures e.Days? <==> 86400000 <= diffMs
    ensures e.Minutes? ==> 1 <= e.n < 60 && e.n * 60000 <= diffMs < (e.n + 1) * 60000
    ensures e.Hours? ==> 1 <= e.n < 24 && e.n * 3600000 <= diffMs < (e.n + 1) * 3600000
    ensures e.Days? ==> 1 <= e.n && e.n * 86400000 <= diffMs < (e.n + 1) * 86400000
  {
    var diffMins := diffMs / 60000;
    var diffHours := diffMs / 3600000;
    var diffDays := diffMs / 86400000;
    if diffMins < 1 then JustNow
    else if diffMins < 60 then Minutes(diffMins)
    else if diffHours < 24 then Hours(diffHours)
    else Days(diffDays)
  }

  /** The English phrase for an age, singular for a count of one. */
  function Phrase(e: Elapsed): (phrase: string)
    ensures |phrase| > 0
  {
    match e
    case JustNow => "just now"
    case Minutes(n) => if n == 1 then "1 minute ago" else DecimalString(n) + " minutes ago"
    case Hours(n) => if n == 1 then "1 hour ago" else DecimalString(n) + " hours ago"
    case Days(n) => if n == 1 then "1 day ago" else DecimalString(n) + " days ago"
  }

  /** The unit words that follow a count other than one. */
  function PluralSuffix(e: Elapsed): (suffix: string)
    requires !e.JustNow?
  {
    match e
    case Minutes(_) => " minutes ago"
    case Hours(_) => " hours ago"
    case Days(_) => " days ago"
  }

  /** A count followed by `suffix` is not `target` when `target` is too
      short to hold both, or differs from `suffix` at offset `k` of where
      the suffix would begin. */
  lemma CountedPhraseIsNot(digits: string, suffix: string, target: string, k: int)
    requires |digits| >= 1 && 0 <= k < |suffix|
    requires |target| <= |suffix| || target[|target| - |suffix| + k] != suffix[k]
    ensures digits + suffix != target
  {
  }

  /** A phrase for a count other than one is the count in decimal, which
      parses back to the count, followed by the plural unit words. */
  lemma PluralPhraseReadsBack(e: Elapsed)
    requires !e.JustNow? && e.n != 1
    ensures var digits := DecimalString(e.n);
      && Phrase(e) == digits + PluralSuffix(e)
      && Phrase(e)[..|digits|] == digits
      && ParseDecimal(Phrase(e)[..|digits|]) == e.n
  {
    var digits := DecimalString(e.n);
    assert Phrase(e) == digits + PluralSuffix(e);
    assert Phrase(e)[..|digits|] == digits;
    ParseDecimalString(e.n);
  }

  /** A phrase can be read back: "just now" and each singular form name
      exactly one age class, and every other phrase starts with a digit
      (and is read back by `PluralPhraseReadsBack`). */
  lemma PhraseReadsBack(e: Elapsed)
    ensures Phrase(e) == "just now" <==> e.JustNow?
    ensures !e.JustNow? ==> IsDigit(Phrase(e)[0])
    ensures Phrase(e) == "1 minute ago" <==> e == Minutes(1)
    ensures Phrase(e) == "1 hour ago" <==> e == Hours(1)
    ensures Phrase(e) == "1 day ago" <==> e == Days(1)
  {
    if !e.JustNow? && e.n != 1 {
      var digits := DecimalString(e.n);
      var suffix := PluralSuffix(e);
      assert Phrase(e) == digits + suffix;
      assert Phrase(e)[0] == digits[0];
      CountedPhraseIsNot(digits, suffix, "1 minute ago", 0);
      CountedPhraseIsNot(digits, suffix, "1 hour ago", if e.Days? then 1 else 0);
      CountedPhraseIsNot(digits, suffix, "1 day ago", 0);
    }
  }

  /** `timeAgo`: the phrase for the time from `pastMs` to `nowMs`. "just
      now" is said for exactly the ages under one minute, future instants
      included; each singular form for exactly the first whole unit; every
      other phrase is the floored count of minutes (below an hour), hours
      (below a day) or days, in decimal, with the plural unit words. */
  function TimeAgo(nowMs: int, pastMs: int): (phrase: string)
    ensures |phrase| > 0
    ensures phrase == "just now" <==> nowMs - pastMs < 60000
    ensures nowMs - pastMs >= 60000 ==> IsDigit(phrase[0])
    ensures phrase == "1 minute ago" <==> 60000 <= nowMs - pastMs < 120000
    ensures phrase == "1 hour ago" <==> 3600000 <= nowMs - pastMs < 7200000
    ensures phrase == "1 day ago" <==> 86400000 <= nowMs - pastMs < 172800000
    ensures 120000 <= nowMs - pastMs < 3600000 ==>
      phrase == DecimalString((nowMs - pastMs) / 60000) + " minutes ago"
    ensures 7200000 <= nowMs - pastMs < 86400000 ==>
      phrase == DecimalString((nowMs - pastMs) / 3600000) + " hours ago"
    ensures 172800000 <= nowMs - pastMs ==>
      phrase == DecimalString((nowMs - pastMs) / 86400000) + " days ago"
  {
    var e := ElapsedSince(nowMs - pastMs);
    PhraseReadsBack(e);
    if !e.JustNow? && e.n != 1 then PluralPhraseReadsBack(e); Phrase(e) else Phrase(e)
  }

  // ---------------------------------------------------------------------
  // Staleness
  // ---------------------------------------------------------------------

  /** The default staleness threshold of `isDataStale`, in minutes. */
  const DefaultStaleMinutes: int := 5

  /** `isDataStale`: the number of whole minutes since the data's instant
      exceeds the threshold. */
  function IsDataStale(nowMs: int, timestampMs: int, thresholdMinutes: int): (stale: bool)
    ensures stale <==> nowMs - timestampMs >= (thresholdMinutes + 1) * 60000
  {
    (nowMs - timestampMs) / 60000 > thresholdMinutes
  }

  /** With the default threshold, 5 min 59.999 s is still fresh and 6 min
      is stale. */
  lemma DefaultStalenessBoundary(nowMs: int)
    ensures !IsDataStale(nowMs, nowMs - 359999, DefaultStaleMinutes)
    ensures IsDataStale(nowMs, nowMs - 360000, DefaultStaleMinutes)
  {
  }

  /** Older data is at least as stale: staleness never reverts as the age
      grows, for a fixed threshold. */
  lemma StalenessMonotone(nowMs: int, olderMs: int, newerMs: int, thresholdMinutes: int)
    requires olderMs <= newerMs
    ensures IsDataStale(nowMs, newerMs, thresholdMinutes) ==> IsDataStale(nowMs, olderMs, thresholdMinutes)
  {
  }

  // ---------------------------------------------------------------------
  // File size
  // ---------------------------------------------------------------------

  datatype SizeUnit = Bytes | Kilobytes | Megabytes

  /** What one unit of `u` is worth in bytes. */
  function UnitDivisor(u: SizeUnit): (bytes: real)
    ensures bytes >= 1.0
  {
    match u
    case Bytes => 1.0
    case Kilobytes => 1024.0
    case Megabytes => 1048576.0
  }

  /** The unit branch of `formatFileSize`: the largest unit no bigger than
      the size, and bytes when even a kilobyte is too big. */
  function FileSizeUnit(bytes: real): (u: SizeUnit)
    ensures u == Bytes || UnitDivisor(u) <= bytes
    ensures forall v: SizeUnit :: UnitDivisor(v) <= bytes ==> UnitDivisor(v) <= UnitDivisor(u)
  {
    if bytes < 1024.0 then Bytes
    else if bytes < 1048576.0 then Kilobytes
    else Megabytes
  }

  /** The number printed before the chosen unit is below 1024 except in
      megabytes, and at least 1 except in bytes. */
  lemma FileSizeUnitScale(bytes: real)
    ensures var u := FileSizeUnit(bytes);
      && (u != Megabytes ==> bytes / UnitDivisor(u) < 1024.0)
      && (u != Bytes ==> bytes / UnitDivisor(u) >= 1.0)
  {
  }
}

=== FILE: maybe.dfy ===
/** Optional values and results, standing in for TypeScript's `T | undefined`,
    `T | null` and for a promise that either resolves or rejects. */
module Maybe {

  /** `undefined` / `null` versus a present value. */
  datatype Option<+T> = None | Some(value: T) {

    /** The present value, or `default` when absent (TypeScript's `??`). */
    function GetOr(default: T): (v: T) {
      match this
      case Some(v) => v
      case None => default
    }
  }

  /** A resolved value or a thrown one. */
  datatype Result<+T, +E> = Ok(value: T) | Err(error: E)
}

=== FILE: radar_api.dfy ===
/** The data gateway (src/services/radarApi.ts). Each fetch method is a pure
    function of the transport's outcome and of the wall-clock instant `now`
    (milliseconds) at which the mock data would be synthesized. */
module RadarApi {
  import opened Maybe
  import opened Decimal
  import opened Sequences
  import opened RadarTypes

  /** The HTTP client's request timeout. */
  const RequestTimeoutMs: nat := 30000
  /** Synthetic frames and timestamps are two minutes apart. */
  const MockSpacingMs: int := 120000
  /** Number of synthetic timestamps: one hour at the two-minute cadence. */
  const MockTimestampCount: nat := 30
  /** `getRadarFrames` asks for ten frames when called without a count. */
  const DefaultFrameCount: int := 10

  const PendingImageUrl: string :=
    "https://via.placeholder.com/800x600/1a1a2e/00ff00?text=Radar+Data+Pending"
  const FrameImagePrefix: string :=
    "https://via.placeholder.com/800x600/1a1a2e/00ff00?text=Frame+"

  /** The nominal coverage of the synthetic data: the contiguous United States. */
  const ContinentalBounds: LatLngBounds := LatLngBounds(49.0, 25.0, -66.0, -125.0)
  const MockMetadata: RadarMetadata := RadarMetadata("RALA", 2, "MRMS", "dBZ")

  /** The message `getLatestRadarData` throws when the provider names no
      error. The forgiving methods build messages of their own too, but
      discard them in favour of mock data, so those are not modelled. */
  const LatestFailureMessage: string := "Failed to fetch radar data"

  /** What the HTTP client reports for one request: no response at all
      (network failure), or a response with its status, the time it took to
      arrive, and its decoded body. */
  datatype Exchange<B> = NoResponse | Replied(status: int, latencyMs: nat, body: B)

  /** A value thrown by a gateway method: an `Error` instance with its
      message, or any other thrown value. */
  datatype Thrown = ErrorInstance(message: string) | NonErrorValue

  /** The HTTP client rejects the request (an axios error): nothing came
      back, the 30 s timeout elapsed first, or the status is outside the
      client's default accepted range 200..299. */
  predicate TransportRejects<B>(ex: Exchange<B>) {
    || ex.NoResponse?
    || ex.latencyMs >= RequestTimeoutMs
    || !(200 <= ex.status < 300)
  }

  /** The client accepted the response and the envelope carries a payload. */
  predicate Delivers<T>(ex: Exchange<ApiResponse<T>>) {
    !TransportRejects(ex) && ex.body.success && ex.body.data.Some?
  }

  /** `response.data.error || fallback`: a missing or empty provider message
      gives way to the method's own message. */
  function FailureMessage(error: Option<string>, fallback: string): (m: string)
    requires fallback != ""
    ensures m != ""
    ensures error.Some? && error.value != "" ==> m == error.value
    ensures error.None? || error.value == "" ==> m == fallback
  {
    match error
    case Some(e) => if e != "" then e else fallback
    case None => fallback
  }

  /** The single frame synthesized when the provider cannot be reached. */
  function MockRadarData(now: int): (r: RadarData)
    ensures r.timestamp == now
    ensures r.bounds == ContinentalBounds && WellFormedBounds(r.bounds)
    ensures r.metadata == Some(MockMetadata)
    ensures r.imageUrl == PendingImageUrl
  {
    RadarData(now, PendingImageUrl, ContinentalBounds, Some(MockMetadata))
  }

  /** The instant `i` two-minute steps before `now`. */
  function StepsBefore(now: int, i: int): (t: int) {
    now - i * 2 * 60 * 1000
  }

  /** The frame the synthesizer builds on iteration `i`: `i` steps of two
      minutes before `now`, its image tagged with `i`. */
  function MockFrameAt(now: int, i: nat): (frame: RadarData) {
    RadarData(StepsBefore(now, i), FrameImagePrefix + DecimalString(i),
              ContinentalBounds, Some(MockMetadata))
  }

  /** The synthetic batch of `count` frames, oldest first: the frame built
      on the last iteration, then the batch one frame shorter. */
  function MockFrames(count: int, now: int): (r: seq<RadarData>)
    ensures |r| == if count > 0 then count else 0
    decreases count
  {
    if count <= 0 then [] else [MockFrameAt(now, count - 1)] + MockFrames(count - 1, now)
  }

  /** Entry `k` of a batch is the frame built on iteration `count - 1 - k`. */
  lemma {:induction false} MockFrameIndex(count: int, now: int, k: int)
    requires 0 <= k < count
    ensures MockFrames(count, now)[k] == MockFrameAt(now, count - 1 - k)
    decreases count
  {
    var rest := MockFrames(count - 1, now);
    assert MockFrames(count, now) == [MockFrameAt(now, count - 1)] + rest;
    if k > 0 {
      MockFrameIndex(count - 1, now, k - 1);
      assert MockFrames(count, now)[k] == rest[k - 1];
    }
  }

  /** The batch is two minutes apart, ends at `now` and covers the
      continental United States throughout. */
  lemma MockFramesShape(count: int, now: int)
    ensures var r := MockFrames(count, now);
      && EvenlySpaced(Timestamps(r), MockSpacingMs)
      && (|r| > 0 ==> r[|r| - 1].timestamp == now)
      && forall k :: 0 <= k < |r| ==> r[k].bounds == ContinentalBounds
  {
    var r := MockFrames(count, now);
    var ts := Timestamps(r);
    forall k | 0 <= k < |r|
      ensures ts[k] == StepsBefore(now, |r| - 1 - k) && r[k].bounds == ContinentalBounds
    {
      MockFrameIndex(count, now, k);
    }
  }

  /** The synthesizer's loop as written: walk back from `now` pushing one
      frame per iteration, then reverse the array. It builds exactly the
      batch `MockFrames` describes. */
  method BuildMockFrames(count: int, now: int) returns (frames: seq<RadarData>)
    ensures frames == MockFrames(count, now)
  {
    var pushed: seq<RadarData> := [];
    var i := 0;
    while i < count
      invariant 0 <= i <= if count > 0 then count else 0
      invariant Reverse(pushed) == MockFrames(i, now)
    {
      var time := now - i * 2 * 60 * 1000;
      var frame := RadarData(time, FrameImagePrefix + DecimalString(i),
                             ContinentalBounds, Some(MockMetadata));
      assert frame == MockFrameAt(now, i);
      assert MockFrames(i + 1, now) == [frame] + MockFrames(i, now);
      ReverseAppend(pushed, frame);
      pushed := pushed + [frame];
      i := i + 1;
    }
    frames := Reverse(pushed);
  }

  /** The synthetic timestamp list: the last hour at a two-minute cadence. */
  function MockTimestamps(now: int): (r: seq<int>)
    ensures |r| == MockTimestampCount
    ensures EvenlySpaced(r, MockSpacingMs)
    ensures r[|r| - 1] == now
  {
    var n := MockTimestampCount;
    seq(n, k requires 0 <= k < n => StepsBefore(now, n - 1 - k))
  }

  /** The timestamp synthesizer's loop as written: push, then reverse. */
  method BuildMockTimestamps(now: int) returns (timestamps: seq<int>)
    ensures timestamps == MockTimestamps(now)
  {
    var pushed: seq<int> := [];
    var i := 0;
    while i < 30
      invariant 0 <= i <= 30
      invariant |pushed| == i
      invariant forall j :: 0 <= j < i ==> pushed[j] == StepsBefore(now, j)
    {
      pushed := pushed + [now - i * 2 * 60 * 1000];
      i := i + 1;
    }
    timestamps := Reverse(pushed);
  }

  /** `getLatestRadarData`: the payload when delivered; mock data when the
      HTTP client rejects the request; and otherwise the `Error` built from
      the envelope is rethrown, not replaced by mock data. */
  function GetLatestRadarData(ex: Exchange<ApiResponse<RadarData>>, now: int): (r: Result<RadarData, Thrown>)
    ensures Delivers(ex) ==> r == Ok(ex.body.data.value)
    ensures TransportRejects(ex) ==> r == Ok(MockRadarData(now))
    ensures r.Err? <==> !TransportRejects(ex) && !Delivers(ex)
    ensures r.Err? ==> r.error == ErrorInstance(FailureMessage(ex.body.error, LatestFailureMessage))
  {
    if TransportRejects(ex) then Ok(MockRadarData(now))
    else if ex.body.success && ex.body.data.Some? then Ok(ex.body.data.value)
    else Err(ErrorInstance(FailureMessage(ex.body.error, LatestFailureMessage)))
  }

  /** The shared shape of the three forgiving fetch methods: the delivered
      payload, or `fallback` on every kind of failure. */
  function DeliveredOr<T>(ex: Exchange<ApiResponse<T>>, fallback: T): (r: T)
    ensures Delivers(ex) ==> r == ex.body.data.value
    ensures !Delivers(ex) ==> r == fallback
  {
    if Delivers(ex) then ex.body.data.value else fallback
  }

  /** `getRadarDataByTimestamp`. The requested instant only shapes the
      request path, which belongs to the transport. */
  function GetRadarDataByTimestamp(ex: Exchange<ApiResponse<RadarData>>, now: int): (r: RadarData)
    ensures Delivers(ex) ==> r == ex.body.data.value
    ensures !Delivers(ex) ==> r == MockRadarData(now)
  {
    DeliveredOr(ex, MockRadarData(now))
  }

  /** `getAvailableTimestamps`. */
  function GetAvailableTimestamps(ex: Exchange<ApiResponse<seq<int>>>, now: int): (r: seq<int>)
    ensures Delivers(ex) ==> r == ex.body.data.value
    ensures !Delivers(ex) ==> r == MockTimestamps(now)
    ensures !Delivers(ex) ==> |r| == MockTimestampCount && Ascending(r) && r[|r| - 1] == now
  {
    EvenlySpacedAscending(MockTimestamps(now), MockSpacingMs);
    DeliveredOr(ex, MockTimestamps(now))
  }

  /** `getRadarFrames(count)`; a delivered batch is passed through in the
      provider's order. */
  function GetRadarFrames(count: int, ex: Exchange<ApiResponse<seq<RadarData>>>, now: int): (r: seq<RadarData>)
    ensures Delivers(ex) ==> r == ex.body.data.value
    ensures !Delivers(ex) ==> r == MockFrames(count, now)
    ensures !Delivers(ex) ==> |r| == (if count > 0 then count else 0) && Ascending(Timestamps(r))
    ensures !Delivers(ex) && count > 0 ==> r[|r| - 1].timestamp == now
  {
    MockFramesShape(count, now);
    EvenlySpacedAscending(Timestamps(MockFrames(count, now)), MockSpacingMs);
    DeliveredOr(ex, MockFrames(count, now))
  }

  /** `checkHealth`: true exactly for an accepted response with status 200;
      every failure reads as false. */
  function CheckHealth<B>(ex: Exchange<B>): (healthy: bool)
    ensures healthy <==> ex.Replied? && ex.latencyMs < RequestTimeoutMs && ex.status == 200
  {
    !TransportRejects(ex) && ex.status == 200
  }

  /** The asymmetry between the two single-frame methods: given the same
      exchange they agree whenever `getLatestRadarData` resolves, and where it
      throws, `getRadarDataByTimestamp` resolves to mock data instead. */
  lemma LatestRethrowsWhereByTimestampFallsBack(ex: Exchange<ApiResponse<RadarData>>, now: int)
    ensures GetLatestRadarData(ex, now).Ok? ==> GetRadarDataByTimestamp(ex, now) == GetLatestRadarData(ex, now).value
    ensures GetLatestRadarData(ex, now).Err? ==> GetRadarDataByTimestamp(ex, now) == MockRadarData(now)
    ensures GetLatestRadarData(ex, now).Err? <==>
              && ex.Replied? && ex.latencyMs < RequestTimeoutMs && 200 <= ex.status < 300
              && !(ex.body.success && ex.body.data.Some?)
  {
  }

  /** A reply that arrives only after the timeout counts as a transport
      failure: mock data for the latest frame, and an unhealthy backend. */
  lemma SlowReplyIsTransportFailure<B>(status: int, latencyMs: nat, envelope: ApiResponse<RadarData>, probe: B, now: int)
    requires latencyMs >= RequestTimeoutMs
    ensures GetLatestRadarData(Replied(status, latencyMs, envelope), now) == Ok(MockRadarData(now))
    ensures !CheckHealth(Replied(status, latencyMs, probe))
  {
  }

  /** Mock frames carry pairwise distinct image locators; the oldest is
      tagged `count - 1` and the newest `0`. */
  lemma MockFrameImagesDistinct(count: int, now: int)
    ensures var r := MockFrames(count, now);
      forall j, k :: 0 <= j < k < |r| ==> r[j].imageUrl != r[k].imageUrl
    ensures count > 0 ==> MockFrames(count, now)[0].imageUrl == FrameImagePrefix + DecimalString(count - 1)
    ensures count > 0 ==> MockFrames(count, now)[count - 1].imageUrl == FrameImagePrefix + "0"
  {
    var r := MockFrames(count, now);
    if count > 0 {
      MockFrameIndex(count, now, count - 1);
    }
    forall j, k | 0 <= j < k < |r|
      ensures r[j].imageUrl != r[k].imageUrl
    {
      MockFrameIndex(count, now, j);
      MockFrameIndex(count, now, k);
      FrameImagesDiffer(now, |r| - 1 - j, |r| - 1 - k);
    }
  }

  /** Frames built on different iterations have different image locators. */
  lemma FrameImagesDiffer(now: int, a: nat, b: nat)
    requires a != b
    ensures MockFrameAt(now, a).imageUrl != MockFrameAt(now, b).imageUrl
  {
    DecimalStringInjective(a, b);
    assert MockFrameAt(now, a).imageUrl[|FrameImagePrefix|..] == DecimalString(a);
    assert MockFrameAt(now, b).imageUrl[|FrameImagePrefix|..] == DecimalString(b);
  }

  /** Without a count the frames request asks for ten, and when it fails in
      any way the caller receives ten synthetic frames ending now. */
  lemma DefaultFramesFallback(ex: Exchange<ApiResponse<seq<RadarData>>>, now: int)
    requires !Delivers(ex)
    ensures |GetRadarFrames(DefaultFrameCount, ex, now)| == 10
    ensures GetRadarFrames(DefaultFrameCount, ex, now)[9].timestamp == now
  {
  }

  /** A delivered batch is not re-sorted: a newest-first payload comes back
      newest first. */
  lemma DeliveredFramesNotResorted(now: int)
    ensures var newestFirst := [MockRadarData(now), MockRadarData(now - MockSpacingMs)];
      var r := GetRadarFrames(2, Replied(200, 0, ApiResponse(true, Some(newestFirst), None)), now);
      r == newestFirst && !Ascending(Timestamps(r))
  {
    var newestFirst := [MockRadarData(now), MockRadarData(now - MockSpacingMs)];
    assert Timestamps(newestFirst)[0] > Timestamps(newestFirst)[1];
  }
}

=== FILE: radar_types.dfy ===
/** The records exchanged between the gateway, the application state and the
    views (src/types/radar.types.ts). Timestamps are milliseconds since the
    epoch instead of ISO-8601 strings. */
module RadarTypes {
  import opened Maybe

  /** An axis-aligned geographic rectangle, in degrees. */
  datatype LatLngBounds = LatLngBounds(north: real, south: real, east: real, west: real)

  /** Descriptive metadata; never used for a control decision. */
  datatype RadarMetadata = RadarMetadata(
    dataType: string,
    updateInterval: int,
    source: string,
    units: string)

  /** One radar snapshot. `metadata` is optional, as in the source record. */
  datatype RadarData = RadarData(
    timestamp: int,
    imageUrl: string,
    bounds: LatLngBounds,
    metadata: Option<RadarMetadata>)

  /** The JSON envelope every provider endpoint answers with. The envelope's
      own `timestamp` field is never read by the client and is omitted. */
  datatype ApiResponse<T> = ApiResponse(success: bool, data: Option<T>, error: Option<string>)

  /** A rectangle that does not wrap the anti-meridian and is not empty. */
  predicate WellFormedBounds(b: LatLngBounds) {
    b.south < b.north && b.west < b.east
  }

  /** Strictly increasing timestamps, oldest first. */
  predicate Ascending(ts: seq<int>) {
    forall i, j :: 0 <= i < j < |ts| ==> ts[i] < ts[j]
  }

  /** Consecutive entries exactly `step` apart. */
  ghost predicate EvenlySpaced(ts: seq<int>, step: int) {
    forall j, k {:trigger ts[j], ts[k]} :: 0 <= j && k == j + 1 && k < |ts| ==> ts[k] == ts[j] + step
  }

  /** A positive cadence orders a sequence strictly. */
  lemma {:induction false} EvenlySpacedAscending(ts: seq<int>, step: int)
    requires step > 0
    requires EvenlySpaced(ts, step)
    ensures Ascending(ts)
    decreases |ts|
  {
    if |ts| > 1 {
      var front := ts[..|ts| - 1];
      assert EvenlySpaced(front, step);
      EvenlySpacedAscending(front, step);
      forall i, j | 0 <= i < j < |ts|
        ensures ts[i] < ts[j]
      {
        if j < |ts| - 1 {
          assert ts[i] == front[i] && ts[j] == front[j];
        } else if i < |ts| - 2 {
          assert ts[i] == front[i] && ts[|ts| - 2] == front[|ts| - 2];
        }
      }
    }
  }

  function Timestamps(frames: seq<RadarData>): (ts: seq<int>)
    ensures |ts| == |frames|
    ensures forall i :: 0 <= i < |frames| ==> ts[i] == frames[i].timestamp
  {
    seq(|frames|, i requires 0 <= i < |frames| => frames[i].timestamp)
  }
}

=== FILE: sequences.dfy ===
/** Sequence utilities the client borrows from JavaScript arrays. */
module Sequences {

  /** `Array.prototype.reverse`: the last element first. */
  function Reverse<T>(s: seq<T>): (r: seq<T>)
    ensures |r| == |s|
    ensures forall i :: 0 <= i < |s| ==> r[i] == s[|s| - 1 - i]
  {
    if |s| == 0 then [] else [s[|s| - 1]] + Reverse(s[..|s| - 1])
  }

  /** Reversing after an append puts the appended element first. */
  lemma ReverseAppend<T>(s: seq<T>, x: T)
    ensures Reverse(s + [x]) == [x] + Reverse(s)
  {
    assert (s + [x])[..|s|] == s;
  }
}
